=== FILE: README.md ===
# MovingMarker in Dafny

A model of the time-to-position state machine of `MovingMarker`, a map
marker that walks along a polyline of waypoints. Each segment has a
duration in milliseconds. Interior waypoints may carry a "station" dwell
time. The path may loop back to its first segment.

The marker is an immutable record (`MarkerState.Marker`) with these parts:

- the path: waypoints, per-segment durations and stations;
- the loop and autostart options;
- the cursor: current segment index, its duration and its two end points;
- the two timing anchors: the wall clock and the frame clock at which the
  current segment began;
- the pause instant;
- the control state: `NotStarted`, `Ended`, `Paused` or `Run`;
- what the host sees: the rendered position, the pending frame request and
  the trace of `start` / `loop` / `end` events fired so far.

Every operation of the class is a pure function from marker to marker. The
wall clock (`Date.now()`) is a parameter `now`. The frame clock handed to
frame callbacks is a parameter `timestamp`.

Modules:

- `Geo` (geo.dfy): coordinates and the clamped linear interpolation.
- `Durations` (durations.dfy): the sum of segment lengths and the
  proportional split of a total duration.
- `MarkerState` (state.dfy): the record, its invariant, `loadLine`, and
  `stop` as the end of the path calls it.
- `Crossing` (crossing.dfy): the boundary-crossing step `updateLine`. It
  has two forms:
  - `Walk` is a recursive reference definition, one loop iteration per
    call, built on `Iterate`.
  - `UpdateLineLoop` / `CrossBoundaries` are the source's `while` loop,
    proved equal to it.
  - `Reach`, `After` and `Wraps` are an independent account of a crossing:
    the dwells and segment durations crossed after a number of moves, the
    segment reached, and the wraps on the way. `WalkAdvanceTime`,
    `WalkHoldTime` and `WalkEndTime` relate every outcome of `Walk` to it.

  The loop terminates because every iteration uses up at least one
  shortest segment (`Steps`, `StepsDecrease`). This needs positive
  segment durations and non-negative dwells.
- `Controls` (controls.dfy): construction, `animate`, the frame callbacks,
  `updatePosition`, `start`, `resume`, `pause`, `stop`, `addLatLng`,
  `addStation`, `moveTo`.
- `Properties` (properties.dfy): pausing and then resuming does not move the
  marker.

`null` returned by `updateLine` is the tagged result `Crossing.Step`:

- `Advance(t)`: elapsed time on the current segment;
- `Hold`: holding at a station;
- `AtEnd`: reached the end of the path.

Frame scheduling is reduced to the field `frame`. `FirstFrame` is the
request made by `startAnimation`; its callback sets both anchors before
animating. `NextFrame` is the per-frame request made by `animate`.
`NoFrame` means nothing is pending. `OnFrame` runs the pending callback.

The invariant `MarkerState.Valid` holds for every well-formed marker:

- at least two waypoints and one duration per segment;
- every segment duration is positive;
- every dwell is non-negative;
- the cursor indexes a segment;
- a loaded segment ends at the waypoint after the cursor;
- a running or paused marker has a loaded segment;
- a frame is pending only while running.

Behaviours of the code a reader may not expect, which the model follows:

- `moveTo` keeps the registered stations. Their indices now refer to the
  new two-point path, so a station at index 1 makes the marker dwell at the
  target.
- `stop()` called right after `start()` ends on the last waypoint only when
  the wall clock already exceeds the whole path's duration and loop is off.
  The first frame has not set the anchors yet, so the forced render measures
  from the old anchors.
- A total distance of zero is not guarded in the code. The model requires a
  positive total for the proportional split.
- A pause taken during a station dwell leaves a negative remaining duration
  on the segment. The first frame after `resume` therefore replays the rest
  of the dwell, with no jump (`Properties.PauseResumeSeamless`).
- A hold at a station does not move the cursor or the anchors. Every frame
  of a dwell therefore repeats the crossing from the same segment. When
  that crossing wraps, each frame of the dwell fires `loop` again
  (`Crossing.DwellAfterWrapRefiresLoop`). Each single frame fires exactly
  one `loop` per wrap it crosses.

## Model

| member | source | states |
|---|---|---|
| Geo.Fraction | MovingMarker.ts:44-46 | The fraction is clamped to [0, 1]. It is 0 for t ≤ 0 and 1 for t ≥ duration. Strictly inside the segment it is t / duration. For a zero duration it is 1 exactly when t > 0, as the floating-point quotient clamps. |
| Geo.Interpolate | MovingMarker.ts:43-48 | The result lies in the box spanned by the two end points. For a positive duration it is p1 at t ≤ 0, p2 at t ≥ duration, and strictly inside each coordinate is p1 + (t / duration)(p2 − p1). For a zero duration it is p1 at t ≤ 0 and p2 at t > 0: 0/0 is NaN there, and the clamp turns NaN into 0. |
| Geo.FractionMonotone | MovingMarker.ts:43-47 | Progress along a segment never decreases as time increases. |
| MarkerState.QueriesPartition | MovingMarker.ts:50-64 | isStarted holds exactly when running, paused or ended. At most one of those holds. |
| MarkerState.LoadLine | MovingMarker.ts:217-221 | After loading segment i, the cursor is i, the current duration is durations[i] and the current line is [latLngs[i], latLngs[i+1]]. Nothing else changes. |
| MarkerState.Finish | MovingMarker.ts:100-115 | stop with a leftover time: an ended marker is unchanged. Otherwise the frame is cancelled, the state is Ended and exactly one `end` carrying that time is appended. Path, cursor and position are untouched. |
| MarkerState.EndCountLoops | MovingMarker.ts:261 | Appending only `loop` events leaves the number of `end` events unchanged. |
| Durations.TotalDistance | MovingMarker.ts:158-168 | The accumulating loop computes the sum of the segment lengths. The sum is non-negative when the lengths are. |
| Durations.CreateDurations | MovingMarker.ts:157-176 | One duration per segment. Each equals total × length / Σ lengths (stated multiplied out). All are non-negative for a non-negative total. |
| Durations.CreateDurationsSum | MovingMarker.ts:157-176 | The split durations add up to the requested total. |
| Durations.SharesInRatio | MovingMarker.ts:170-173 | Any two split durations stand in the ratio of their segments' lengths. |
| Crossing.StepsDecrease | MovingMarker.ts:241-271 | Each pass of the loop uses up at least one shortest segment, so the termination measure strictly drops. |
| Crossing.Iterate | MovingMarker.ts:242-270 | One pass of the loop either moves on, holds or ends. Moving on keeps the path, leaves a time between 0 and the overshoot on a segment with its own duration, and appends only `loop` events, none without loop. A hold changes only the position, onto a station's waypoint. An end happens only without loop: last waypoint, Ended, and (unless already ended) one `end` with a non-negative leftover, cursor untouched. The exact outcome is IteratePass. |
| Crossing.IteratePass | MovingMarker.ts:242-270 | One pass finishing segment i holds exactly when waypoint i+1 has a station whose dwell exceeds the time left past the segment's end, and then only the position changes, to latLngs[i+1]. Otherwise the dwell (or 0) is taken off the time left. The pass then moves to segment i+1, or to 0 after the last segment when looping. A wrap appends exactly `loop` with that time left; a plain move appends nothing. After the last segment without loop it ends, appending exactly `end` with that time left unless already ended. |
| Crossing.Walk | MovingMarker.ts:241-276 | The loop run to completion keeps the path. Advance and Hold only append `loop` events, and none without loop. A looping marker never reaches AtEnd and keeps its state. |
| Crossing.WalkAdvance | MovingMarker.ts:270-276 | When the loop lands on a segment: that segment is loaded, and 0 ≤ t ≤ its duration. t is no more than the overshoot. Both anchors are set t before the frame. Nothing else changes but appended `loop` events. |
| Crossing.WalkHold | MovingMarker.ts:244-253 | A hold changes only the position, which is a station's waypoint, and appends only `loop` events. Cursor, anchors and state are not advanced. |
| Crossing.WalkAdvanceTime | MovingMarker.ts:241-276 | A crossing that lands on a segment, k+1 moves after segment i, lands on After(i, k+1). The overshoot past segment i equals Reach(i, k) + the dwell at the end of segment After(i, k) + t, with t the time along the segment reached. Since the loop leaves a segment only strictly past its end, t > 0 unless that dwell is positive. Exactly one `loop` fired per wrap, and no wrap happens without loop. |
| Crossing.WalkHoldTime | MovingMarker.ts:241-253 | A crossing that holds does so after k moves, at the end of segment j = After(i, k). Waypoint j+1 has a station and the marker stands on it. The time left past segment j's end, the overshoot less Reach(i, k), is positive and below that station's dwell. One `loop` fired per wrap. |
| Crossing.WalkEndTime | MovingMarker.ts:241-268 | A crossing that ends does so after finishing the last segment, k = |durations| − 1 − i moves on. The `end` event carries the overshoot less Reach(i, k) and less the dwell at the last waypoint. That leftover is positive unless the last waypoint has a positive dwell, since the last segment is left only strictly past its end. |
| Crossing.WalkAtEnd | MovingMarker.ts:257-268 | Reaching the end without loop: position is the last waypoint, state Ended, frame cancelled, exactly one `end` with leftover ≥ 0. Cursor and anchors are untouched. |
| Crossing.UpdateLine | MovingMarker.ts:229-277 | Fast path: elapsed ≤ current duration returns that elapsed time and leaves everything unchanged. Slow path gives one of: (a) an advance onto a loaded segment with 0 ≤ t ≤ its duration and anchors = timestamp − t / now − t; (b) a hold at a station; (c) the end as in WalkAtEnd. The marker stays Valid. Which segment, station or leftover is stated by UpdateLineTime. |
| Crossing.UpdateLineTime | MovingMarker.ts:229-277 | A frame overshooting the current segment lands on, holds at, or ends with exactly what the time accounting of WalkAdvanceTime, WalkHoldTime and WalkEndTime gives, counted from the current segment. |
| Crossing.DwellAfterWrapRefiresLoop | MovingMarker.ts:244-261 | Looping path A-B-C with 10 ms segments and a 100 ms dwell at B, cursor on B-C. The frames at 25 and 41 ms both hold at B, and each fires `loop` again: loop(15), then loop(31). |
| Crossing.UpdateLineLoop | MovingMarker.ts:229-277 | The `while`-loop implementation returns exactly the marker and step of the reference definition. |
| Crossing.CrossBoundaries | MovingMarker.ts:237-276 | The loop, started from the current segment with an overshooting elapsed time, computes the reference `Walk`. |
| Controls.NewMarker | MovingMarker.ts:30-41 | A new marker stands on the first waypoint, not started, with no stations and no events. Durations are taken as given, or split from a total in proportion to the segment lengths. |
| Controls.Animate | MovingMarker.ts:279-305 | A frame either ends the marker, with nothing requested, or keeps its state. In the second case it requests the next frame unless suppressed, and renders on the current segment or at a station. Newly ending appends one `end` at the last waypoint, never for a looping marker. On the fast path the position is the interpolation of the elapsed time and the cursor is unchanged. |
| Controls.AnimateKeepsValid | MovingMarker.ts:279-305 | A frame keeps the marker's invariant. |
| Controls.OnFrame | MovingMarker.ts:178-190 | Running the pending callback keeps the invariant. The first frame after a start sets both anchors to this frame and renders the segment's start point. Afterwards a frame is pending unless the marker ended. |
| Controls.UpdatePosition | MovingMarker.ts:212-215 | The one-off render requests no frame and keeps the invariant. Within the current segment it leaves the state, cursor and events as they were and renders the interpolated position. Otherwise it either ends at the last waypoint with one more `end`, or keeps the state it had and renders on the new segment or at a station with only `loop` events added. |
| Controls.Start | MovingMarker.ts:65-77 | No-op while running. From Paused it equals resume. Otherwise it loads segment 0, runs, requests the first frame and appends `start`. Path, durations, stations, loop, autostart, the start anchors and pauseStartTime are kept. |
| Controls.Resume | MovingMarker.ts:79-87 | No-op unless paused. Otherwise: runs, restarts the segment from the rendered position, shortens its duration by pauseStartTime − startTime, and requests the first frame. Nothing else changes: path, cursor, anchors, pauseStartTime, position and events are kept. |
| Controls.Pause | MovingMarker.ts:89-98 | No-op unless running. Otherwise it records the pause instant and cancels the frame. The marker is then Paused, or Ended at the last waypoint, never Ended when looping. Within the segment it is paused at the interpolated position, with cursor and events unchanged. Past it, a paused marker is rendered on its new segment or at a station with only `loop` events added. An ended one has exactly one `end` appended. |
| Controls.Stop | MovingMarker.ts:100-115 | The user's stop as written: no-op once ended. Otherwise Ended with no frame, and the last event appended is `end` with 0. Controls.StopFiresEndOnce states the events before it. |
| Controls.StopRenders | MovingMarker.ts:110-114 | A user stop leaves the marker where the forced render put it. Within the current segment that is the interpolated position, with the cursor kept and exactly `end(0)` added. Past it, the marker is on its new segment, at a station, or at the last waypoint. |
| Controls.StopOnce | MovingMarker.ts:100-115 | The corrected user stop: exactly one more `end` event than before. |
| Controls.StopFiresEndOnce | MovingMarker.ts:100-115 | When the forced render of a stop does not reach the end of the path, the stop adds only `loop` events and then exactly one `end`. |
| Controls.StopFiresEndTwice | MovingMarker.ts:100-115 | For every valid, not yet ended marker whose forced render reaches the end of the path, the stop as written adds two `end` events and the corrected stop adds one. |
| Controls.NearEndStopsTwice | MovingMarker.ts:107-114 | Such a marker exists: one frame past the end of a single 10 ms segment, the stop as written fires `end(10)` and then `end(0)`. The corrected stop fires only `end(10)`. |
| Controls.AddLatLng | MovingMarker.ts:117-120 | Appends exactly one waypoint and one duration. Prefixes and all other fields are unchanged. |
| Controls.AddStation | MovingMarker.ts:131-136 | An index outside 1..N−2 is ignored. Otherwise only key i is set to d; other stations and fields are unchanged. |
| Controls.MoveTo | MovingMarker.ts:122-129 | The path becomes [rendered position, target] with one duration. Loop is off, the marker runs from segment 0, the first frame is requested and `start` is appended. Stations, autostart, the start anchors and pauseStartTime are kept. |
| Properties.WalkAgree | MovingMarker.ts:241-276 | Two runs of the loop on the same path and segment with the same overshoot take the same step, and hold at the same place. |
| Properties.UpdateLineAgree | MovingMarker.ts:229-277 | Two frames on the same segment with the same overshoot take the same step and hold at the same place. |
| Properties.PausedRenderOutcome | MovingMarker.ts:212-215 | A paused render that leaves the marker paused has one of two outcomes: time remains on its segment, or it holds at a station past the end of the segment. |
| Properties.ResumeFromDwell | MovingMarker.ts:79-87 | After a pause during a dwell, the first frame after resume replays the crossing with the same overshoot and stays on the station. |
| Properties.PauseResumeSeamless | MovingMarker.ts:79-98 | For every valid running marker, the first frame after pause then resume renders exactly the position shown at the pause. When the pause's render ended the marker, resume does nothing and the position stays. |

## Left out

- Frame scheduling (`requestAnimFrame`, `cancelAnimFrame`, `animId`, `animRequested`) is reduced to the `frame` field. `resumeAnimation` and the attach/detach hooks `onAdd`/`onRemove` (MovingMarker.ts:138-155, 192-203) belong to the host map and are not modelled.
- `Date.now()` is a parameter. Each operation reads it once, so the callback's two readings (startAnimation and updateLine) share one value.
- `distanceTo` is the host library's geodesic distance. Segment lengths are given as non-negative reals.
- Floating point is not modelled; all arithmetic is on reals. The one exception is the zero-duration quotient in `interpolatePosition`, which is written out as its clamped value.
- The `Marker` base class, `fire` (reduced to the event trace), `console.log` and the `latLng` conversion (identity) are left out.
- The `autostart` option is only read by `onAdd`. It is carried but has no effect.
- Controls.Stop: requires the forced render to be possible: a loaded segment, or a wall clock past the current duration. From a fresh marker with a wall clock of 0 or less, the source reads the ends of an empty segment and throws.
- Controls.Pause: requires `Valid`, as do the frame operations. `Valid` asks for positive segment durations and non-negative dwells, because the model's termination measure counts shortest segments. The source's loop needs less. Without loop, the segment index strictly increases to the end whatever the durations. With loop, it runs forever only when a whole cycle (all durations plus all dwells) is 0 or less.
- Zero segment durations: `MarkerState.Valid` rules out some paths the source animates. A repeated waypoint is one: `createDurations` gives its zero-length segment a duration of 0. `Geo.Fraction` handles a zero duration, but the crossing is not modelled for such paths.
- Controls.UpdatePosition: after a boundary crossing, the position is stated as on the new segment's box, at a station, or at the last waypoint, not as the exact point. The exact point follows from `Crossing.UpdateLine` and `Geo.Interpolate`.
- Controls.Pause: after a boundary crossing, the paused position is stated as on the new segment's box or at a station, not as the exact point, for the same reason.
- Controls.StopRenders: after a boundary crossing, the stopped position is stated as on the new segment's box, at a station or at the last waypoint, not as the exact point, for the same reason.
- Controls.Animate: after a boundary crossing, the contract places the position on the loaded segment's box or at a station, not at the exact point. The exact point follows from `Crossing.UpdateLine` and `Geo.Interpolate`.
- Controls.AddLatLng: keeps the invariant only for a positive duration. Other durations are accepted, as in the source, but leave the model's invariant.
- Durations.CreateDurations: requires a positive total length. The source divides by zero otherwise.

## Findings

| source | as written | input that shows it | evidently intended | confidence | as-written member | corrected member |
|---|---|---|---|---|---|---|
| MovingMarker.ts:107-114 | A user `stop()` forces a render. When that render reaches the end of the path, `updateLine` already calls `stop(overflow)`, which ends the marker and fires `end`. `stop()` then sets Ended again and fires a second `end` with 0. | A running marker on one 10 ms segment, anchored at 0, and `stop()` at wall clock 20 ms. The events are start, end(10), end(0). | One `end` per stop, carrying the overflow. | not executed | Controls.StopFiresEndTwice, Controls.NearEndStopsTwice | Controls.StopOnce |

=== FILE: controls.dfy ===
/**
 The marker's operations: construction, the per-frame render step, the
 control surface (start, pause, resume, stop, moveTo) and the path and
 station edits. Each operation maps a marker to the next marker; the wall
 clock (`now`) and the frame clock (`timestamp`) are parameters.
 */
module Controls {
  import opened Geo
  import opened Durations
  import opened MarkerState
  import opened Crossing

  /** How the durations are given at construction: one per segment, or a
      total to be split over the segments in proportion to their lengths. */
  datatype DurationSpec =
    | PerSegment(segmentDurations: seq<real>)
    | Total(totalDuration: real, distances: seq<real>)

  /** A new marker standing on the first waypoint, not yet started. */
  function NewMarker(latLngs: seq<LatLng>, spec: DurationSpec, loop: bool, autostart: bool): (m: Marker)
    requires |latLngs| >= 1
    requires spec.Total? ==>
               |spec.distances| == |latLngs| - 1 &&
               AllNonNegative(spec.distances) && Sum(spec.distances) > 0.0
    ensures m.latLngs == latLngs && m.position == latLngs[0]
    ensures m.state == NotStarted && m.frame == NoFrame && m.events == [] && m.stations == map[]
    ensures m.loop == loop && m.autostart == autostart
    ensures spec.PerSegment? ==> m.durations == spec.segmentDurations
    ensures spec.Total? ==>
              && |m.durations| == |latLngs| - 1
              && (forall i :: 0 <= i < |m.durations| ==>
                    m.durations[i] * Sum(spec.distances) == spec.totalDuration * spec.distances[i])
    ensures |latLngs| >= 2 && |m.durations| == |latLngs| - 1 && AllPositive(m.durations) ==> Valid(m)
  {
    var durations := match spec
      case PerSegment(ds) => ds
      case Total(total, distances) => CreateDurations(distances, total);
    Marker(latLngs, durations, map[], loop, autostart,
           0, 0.0, [], NotStarted, 0.0, 0.0, 0.0, latLngs[0], NoFrame, [])
  }

  /** Interpolation along the current segment is possible: the segment is
      loaded, or the frame falls past its end (so the boundary-crossing loop
      runs and loads one). Otherwise the source reads the ends of an empty
      segment and throws. */
  predicate CanRender(m: Marker, timestamp: real) {
    |m.currentLine| == 2 || timestamp - m.startTimeStamp > m.currentDuration
  }

  /** The rendered position lies on the current segment, or the marker holds
      at a station. */
  predicate Rendered(m: Marker) {
    || (|m.currentLine| == 2 && OnSegmentBox(m.currentLine[0], m.currentLine[1], m.position))
    || AtStation(m)
  }

  /** `animate`: one frame. Runs the boundary step; unless the marker ended,
      renders the interpolated position (when the step gave an elapsed time)
      and, unless `noRequest`, requests the next frame. */
  function Animate(m: Marker, timestamp: real, noRequest: bool, now: real): (m': Marker)
    requires Valid(m) && CanRender(m, timestamp)
    ensures SamePath(m, m') && m'.pauseStartTime == m.pauseStartTime
    ensures m'.state == Ended ==> m'.frame == NoFrame
    ensures m'.state != Ended ==>
              && m'.state == m.state
              && m'.frame == (if noRequest then NoFrame else NextFrame)
              && Rendered(m')
    ensures m.state != Ended && m'.state == Ended ==>
              && !m.loop
              && m'.position == Last(m.latLngs)
              && |m'.events| == |m.events| + 1
              && m'.events[..|m.events|] == m.events
              && m'.events[|m.events|].End?
              && m'.events[|m.events|].elapsedTime >= 0.0
    ensures m.loop ==> m'.state == m.state
    ensures m'.state != Ended ==> LoopsAppended(m.events, m'.events)
    ensures m.state != Ended && timestamp - m.startTimeStamp <= m.currentDuration ==>
              && m'.position == Interpolate(m.currentLine[0], m.currentLine[1], m.currentDuration,
                                            timestamp - m.startTimeStamp)
              && SameCursor(m, m')
              && m'.events == m.events
  {
    var u := UpdateLine(m.(frame := NoFrame), timestamp, now);
    if u.marker.state == Ended then u.marker
    else
      var line := u.marker.currentLine;
      var rendered := match u.step
        case Advance(t) => u.marker.(position := Interpolate(line[0], line[1], u.marker.currentDuration, t))
        case _ => u.marker;
      if noRequest then rendered else rendered.(frame := NextFrame)
  }

  /** A frame keeps the marker's invariant, unless it requests a next frame
      for a marker that is not running (which no caller does). */
  lemma AnimateKeepsValid(m: Marker, timestamp: real, noRequest: bool, now: real)
    requires Valid(m) && CanRender(m, timestamp)
    requires noRequest || m.state == Run
    ensures Valid(Animate(m, timestamp, noRequest, now))
  {
  }

  /** The host runs the pending frame callback at `timestamp`. The first
      frame after (re)starting anchors the segment's start at this instant. */
  function OnFrame(m: Marker, timestamp: real, now: real): (m': Marker)
    requires Valid(m)
    ensures Valid(m') && SamePath(m, m')
    ensures m.frame == NoFrame ==> m' == m
    ensures m.frame != NoFrame ==>
              m'.frame == (if m'.state == Ended then NoFrame else NextFrame)
    ensures m.frame == FirstFrame && m.currentDuration >= 0.0 ==>
              && m'.position == m.currentLine[0]
              && m'.startTimeStamp == timestamp
              && m'.startTime == now
              && m'.state == Run
              && m'.frame == NextFrame
  {
    match m.frame
    case NoFrame => m
    case FirstFrame =>
      var anchored := m.(startTime := now, startTimeStamp := timestamp);
      AnimateKeepsValid(anchored, timestamp, false, now);
      Animate(anchored, timestamp, false, now)
    case NextFrame =>
      AnimateKeepsValid(m, timestamp, false, now);
      Animate(m, timestamp, false, now)
  }

  /** `updatePosition`: a one-off render at the frame time matching the wall
      clock `now`, with no frame requested. */
  function UpdatePosition(m: Marker, now: real): (m': Marker)
    requires Valid(m) && CanRender(m, m.startTimeStamp + (now - m.startTime))
    ensures Valid(m') && SamePath(m, m') && m'.frame == NoFrame
    ensures m.state != Ended && m'.state == Ended ==>
              && |m'.events| == |m.events| + 1
              && m'.events[..|m.events|] == m.events
              && m'.events[|m.events|].End?
    ensures m'.state != Ended ==> m'.state == m.state && LoopsAppended(m.events, m'.events) && Rendered(m')
    ensures m.state != Ended && m'.state == Ended ==> m'.position == Last(m.latLngs)
    ensures m.state != Ended && now - m.startTime <= m.currentDuration ==>
              && m'.state == m.state
              && m'.position == Interpolate(m.currentLine[0], m.currentLine[1], m.currentDuration,
                                            now - m.startTime)
              && SameCursor(m, m')
              && m'.events == m.events
  {
    var timestamp := m.startTimeStamp + (now - m.startTime);
    assert timestamp - m.startTimeStamp == now - m.startTime;
    AnimateKeepsValid(m, timestamp, true, now);
    Animate(m, timestamp, true, now)
  }

  /** `start`: nothing while running; resumes a paused marker; otherwise
      loads the first segment, runs, and fires `start`. */
  function Start(m: Marker): (m': Marker)
    requires PathShaped(m)
    requires m.state == Paused ==> |m.currentLine| == 2
    ensures m'.state == Run
    ensures SamePath(m, m') && m'.position == m.position
    ensures m.state == Run ==> m' == m
    ensures m.state == Paused ==> m' == Resume(m)
    ensures m.state == NotStarted || m.state == Ended ==>
              && OnSegment(m', 0)
              && m'.frame == FirstFrame
              && m'.events == m.events + [Event.Start]
              && m' == m.(currentIndex := 0, currentDuration := m.durations[0], currentLine := m'.currentLine,
                          state := Run, frame := FirstFrame, events := m'.events)
    ensures Valid(m) ==> Valid(m')
  {
    if m.state == Run then m
    else if m.state == Paused then Resume(m)
    else
      // startAnimation: run and request the anchoring first frame
      var started := LoadLine(m, 0).(state := Run, frame := FirstFrame);
      started.(events := started.events + [Event.Start])
  }

  /** `resume`: only from pause. The segment restarts at the rendered
      position with the time already spent on it (up to the pause) removed
      from its duration, and the first frame re-anchors the timing. */
  function Resume(m: Marker): (m': Marker)
    requires m.state == Paused ==> |m.currentLine| == 2
    ensures m.state != Paused ==> m' == m
    ensures m.state == Paused ==>
              && m'.state == Run
              && m'.frame == FirstFrame
              && |m'.currentLine| == 2
              && m'.currentLine[0] == m.position
              && m'.currentLine[1] == m.currentLine[1]
              && m'.currentDuration == m.currentDuration - (m.pauseStartTime - m.startTime)
              && m'.currentIndex == m.currentIndex
              && m'.position == m.position
              && m'.events == m.events
              && m' == m.(currentLine := m'.currentLine, currentDuration := m'.currentDuration,
                          state := Run, frame := FirstFrame)
    ensures SamePath(m, m')
    ensures Valid(m) ==> Valid(m')
  {
    if m.state != Paused then m
    else
      var line := [m.position, m.currentLine[1]];
      // startAnimation: run and request the anchoring first frame
      m.(currentLine := line, currentDuration := m.currentDuration - (m.pauseStartTime - m.startTime),
         state := Run, frame := FirstFrame)
  }

  /** `pause`: only while running. Records the pause instant, cancels the
      frame and renders the position reached at that instant. */
  function Pause(m: Marker, now: real): (m': Marker)
    requires Valid(m)
    ensures Valid(m') && SamePath(m, m')
    ensures m.state != Run ==> m' == m
    ensures m.state == Run ==>
              && m'.pauseStartTime == now
              && m'.frame == NoFrame
              && (m'.state == Paused || (m'.state == Ended && !m.loop && m'.position == Last(m.latLngs)))
    ensures m.state == Run && m.loop ==> m'.state == Paused
    ensures m.state == Run && m'.state == Paused ==> Rendered(m') && LoopsAppended(m.events, m'.events)
    ensures m.state == Run && m'.state == Ended ==>
              && |m'.events| == |m.events| + 1
              && m'.events[..|m.events|] == m.events
              && m'.events[|m.events|].End?
    ensures m.state == Run && now - m.startTime <= m.currentDuration ==>
              && m'.state == Paused
              && m'.position == Interpolate(m.currentLine[0], m.currentLine[1], m.currentDuration,
                                            now - m.startTime)
              && SameCursor(m, m')
              && m'.events == m.events
  {
    if m.state != Run then m
    else UpdatePosition(m.(pauseStartTime := now, state := Paused, frame := NoFrame), now)
  }

  /** Ending a marker with no pending frame keeps the invariant. */
  lemma EndedKeepsValid(m: Marker, events: seq<Event>)
    requires Valid(m) && m.frame == NoFrame
    ensures Valid(m.(state := Ended, events := events))
  {
  }

  /** The render a user stop forces, stated for the marker before it. */
  lemma ForcedRender(m: Marker, now: real)
    requires Valid(m) && m.state != Ended && CanRender(m, m.startTimeStamp + (now - m.startTime))
    ensures var r := UpdatePosition(m.(frame := NoFrame), now);
            && Valid(r) && SamePath(m, r) && r.frame == NoFrame
            && |r.events| >= |m.events| && r.events[..|m.events|] == m.events
            && (Rendered(r) || r.position == Last(m.latLngs))
            && (r.state != Ended ==> LoopsAppended(m.events, r.events))
            && (now - m.startTime <= m.currentDuration ==>
                  && r.position == Interpolate(m.currentLine[0], m.currentLine[1], m.currentDuration,
                                               now - m.startTime)
                  && SameCursor(m, r)
                  && r.events == m.events)
  {
  }

  /** `stop()` called by the user (no leftover time given): nothing once
      ended; otherwise cancels the frame, renders the position reached now,
      ends, and fires `end` with leftover time 0. This is the source as
      written: when the forced render itself reaches the end of the path,
      that render has already fired `end` with the overflow, and a second
      `end` follows (see `StopFiresEndTwice`). */
  function Stop(m: Marker, now: real): (m': Marker)
    requires Valid(m)
    requires m.state != Ended ==> CanRender(m, m.startTimeStamp + (now - m.startTime))
    ensures Valid(m') && SamePath(m, m')
    ensures m.state == Ended ==> m' == m
    ensures m.state != Ended ==>
              && m'.state == Ended
              && m'.frame == NoFrame
              && |m'.events| > |m.events|
              && m'.events[..|m.events|] == m.events
              && m'.events[|m'.events| - 1] == End(0.0)
  {
    if m.state == Ended then m
    else
      var rendered := UpdatePosition(m.(frame := NoFrame), now);
      var events := rendered.events + [End(0.0)];
      assert events[..|m.events|] == rendered.events[..|m.events|];
      EndedKeepsValid(rendered, events);
      rendered.(state := Ended, events := events)
  }

  /** Where a user stop leaves the marker: where the forced render put it,
      which within the current segment is the interpolated position, with
      the cursor kept and only the final `end` added. */
  lemma StopRenders(m: Marker, now: real)
    requires Valid(m) && m.state != Ended && CanRender(m, m.startTimeStamp + (now - m.startTime))
    ensures Rendered(Stop(m, now)) || Stop(m, now).position == Last(m.latLngs)
    ensures now - m.startTime <= m.currentDuration ==>
              && Stop(m, now).position == Interpolate(m.currentLine[0], m.currentLine[1], m.currentDuration,
                                                      now - m.startTime)
              && SameCursor(m, Stop(m, now))
              && Stop(m, now).events == m.events + [End(0.0)]
  {
    ForcedRender(m, now);
  }

  /** `stop()` with the evident intent: exactly one `end` event per stop. If
      the forced render reached the end of the path it has already ended the
      marker and fired `end` with the overflow, so nothing more is done. */
  function StopOnce(m: Marker, now: real): (m': Marker)
    requires Valid(m)
    requires m.state != Ended ==> CanRender(m, m.startTimeStamp + (now - m.startTime))
    ensures Valid(m') && SamePath(m, m')
    ensures m.state == Ended ==> m' == m
    ensures m.state != Ended ==>
              && m'.state == Ended
              && m'.frame == NoFrame
              && EndCount(m'.events) == EndCount(m.events) + 1
  {
    if m.state == Ended then m
    else
      var rendered := UpdatePosition(m.(frame := NoFrame), now);
      if rendered.state == Ended then
        EndCountAppendOne(m.events, rendered.events);
        rendered
      else
        EndCountLoops(m.events, rendered.events);
        EndCountAppend(rendered.events, End(0.0));
        EndedKeepsValid(rendered, rendered.events + [End(0.0)]);
        rendered.(state := Ended, events := rendered.events + [End(0.0)])
  }

  /** A marker one frame short of the end of its only segment: 20 ms into a
      10 ms segment, without loop. */
  function NearEnd(): (m: Marker) {
    Marker(latLngs := [LatLng(0.0, 0.0), LatLng(1.0, 0.0)],
           durations := [10.0],
           stations := map[],
           loop := false,
           autostart := false,
           currentIndex := 0,
           currentDuration := 10.0,
           currentLine := [LatLng(0.0, 0.0), LatLng(1.0, 0.0)],
           state := Run,
           startTime := 0.0,
           startTimeStamp := 0.0,
           pauseStartTime := 0.0,
           position := LatLng(0.0, 0.0),
           frame := NextFrame,
           events := [Event.Start])
  }

  /** The source's `stop()` fires `end` twice whenever its forced render
      reaches the end of the path: once from the render, with the overflow,
      and once more with 0. */
  lemma StopFiresEndTwice(m: Marker, now: real)
    requires Valid(m) && m.state != Ended
    requires CanRender(m, m.startTimeStamp + (now - m.startTime))
    requires UpdatePosition(m.(frame := NoFrame), now).state == Ended
    ensures EndCount(Stop(m, now).events) == EndCount(m.events) + 2
    ensures EndCount(StopOnce(m, now).events) == EndCount(m.events) + 1
  {
    var rendered := UpdatePosition(m.(frame := NoFrame), now);
    EndCountAppendOne(m.events, rendered.events);
    EndCountAppend(rendered.events, End(0.0));
  }

  /** The other side of `StopFiresEndTwice`: when the forced render does not
      reach the end, the stop as written adds only the render's `loop`
      events and then the one `end`. */
  lemma StopFiresEndOnce(m: Marker, now: real)
    requires Valid(m) && m.state != Ended
    requires CanRender(m, m.startTimeStamp + (now - m.startTime))
    requires UpdatePosition(m.(frame := NoFrame), now).state != Ended
    ensures var s := Stop(m, now);
            && |s.events| > |m.events|
            && LoopsAppended(m.events, s.events[..|s.events| - 1])
            && EndCount(s.events) == EndCount(m.events) + 1
  {
    ForcedRender(m, now);
    var r := UpdatePosition(m.(frame := NoFrame), now);
    var s := Stop(m, now);
    assert s.events == r.events + [End(0.0)];
    assert s.events[..|s.events| - 1] == r.events;
    EndCountLoops(m.events, r.events);
    EndCountAppend(r.events, End(0.0));
  }

  /** Such a marker exists: one frame past the end of its only segment, the
      render fires `end` with the 10 ms overflow and `stop()` adds another. */
  lemma NearEndStopsTwice()
    ensures Valid(NearEnd())
    ensures Stop(NearEnd(), 20.0).events == [Event.Start, End(10.0), End(0.0)]
    ensures StopOnce(NearEnd(), 20.0).events == [Event.Start, End(10.0)]
  {
    var m := NearEnd();
    var m0 := m.(frame := NoFrame);
    assert Iterate(m0, 0, 10.0, 20.0)
        == Done(Update(Finish(m0.(position := LatLng(1.0, 0.0)), 10.0), AtEnd));
  }

  /** `addLatLng`: appends one waypoint and the duration of the segment that
      leads to it; nothing else changes. */
  function AddLatLng(m: Marker, latLng: LatLng, duration: real): (m': Marker)
    ensures |m'.latLngs| == |m.latLngs| + 1
    ensures m'.latLngs[..|m.latLngs|] == m.latLngs && m'.latLngs[|m.latLngs|] == latLng
    ensures |m'.durations| == |m.durations| + 1
    ensures m'.durations[..|m.durations|] == m.durations && m'.durations[|m.durations|] == duration
    ensures m' == m.(latLngs := m'.latLngs, durations := m'.durations)
    ensures Valid(m) && duration > 0.0 ==> Valid(m')
  {
    var m' := m.(latLngs := m.latLngs + [latLng], durations := m.durations + [duration]);
    assert m'.latLngs[..|m.latLngs|] == m.latLngs;
    assert m'.durations[..|m.durations|] == m.durations;
    m'
  }

  /** `addStation`: registers a dwell at an interior waypoint; an index that
      is not interior is ignored. */
  function AddStation(m: Marker, pointIndex: int, duration: real): (m': Marker)
    ensures pointIndex < 1 || pointIndex > |m.latLngs| - 2 ==> m' == m
    ensures 1 <= pointIndex <= |m.latLngs| - 2 ==>
              && m'.stations.Keys == m.stations.Keys + {pointIndex}
              && m'.stations[pointIndex] == duration
              && (forall k :: k in m.stations && k != pointIndex ==> m'.stations[k] == m.stations[k])
    ensures m' == m.(stations := m'.stations)
    ensures Valid(m) && duration >= 0.0 ==> Valid(m')
  {
    if pointIndex > |m.latLngs| - 2 || pointIndex < 1 then m
    else m.(stations := m.stations[pointIndex := duration])
  }

  /** `moveTo`: drops the path and heads from the rendered position to
      `latLng` over `duration`, restarting at once, with looping disabled.
      Registered stations are kept. */
  function MoveTo(m: Marker, latLng: LatLng, duration: real): (m': Marker)
    ensures m'.latLngs == [m.position, latLng] && m'.durations == [duration]
    ensures !m'.loop && m'.state == Run && m'.frame == FirstFrame
    ensures OnSegment(m', 0) && m'.currentLine == [m.position, latLng]
    ensures m'.position == m.position && m'.stations == m.stations
    ensures m'.events == m.events + [Event.Start]
    ensures && m'.startTime == m.startTime && m'.startTimeStamp == m.startTimeStamp
            && m'.pauseStartTime == m.pauseStartTime && m'.autostart == m.autostart
    ensures duration > 0.0 && DwellsOk(m.stations) ==> Valid(m')
  {
    var replaced := m.(frame := NoFrame, latLngs := [m.position, latLng], durations := [duration],
                       state := NotStarted);
    Start(replaced).(loop := false)
  }
}

=== FILE: crossing.dfy ===
/**
 The boundary-crossing step run on every frame: given the frame's timestamp,
 find the segment the marker is on and the time elapsed along it. It may cross
 several segments in one frame, stop at a station to dwell, wrap to the first
 segment when looping, or stop at the last waypoint.

 `Walk` is the reference definition, one loop iteration per call;
 `UpdateLineLoop` is the `while` loop of the source, proved to compute it.
 */
module Crossing {
  import opened Geo
  import opened Durations
  import opened MarkerState

  /** The outcome of a frame: the elapsed time on the (possibly new) current
      segment, or no position update because the marker holds at a station
      or has reached the end of the path (the source returns null for both). */
  datatype Step = Advance(elapsedTime: real) | Hold | AtEnd

  datatype Update = Update(marker: Marker, step: Step)

  /** Termination measure: how many shortest segments still fit into `x`. */
  function Steps(x: real, d: real): (n: nat)
    requires d > 0.0
  {
    if x <= 0.0 then 0
    else
      DivPositive(x, d);
      (x / d).Floor + 1
  }

  lemma DivPositive(x: real, d: real)
    requires x > 0.0 && d > 0.0
    ensures x / d > 0.0
  {
    DivideThenScale(x, d);
  }

  lemma DivMonotone(a: real, b: real, d: real)
    requires a <= b && d > 0.0
    ensures a / d <= b / d
  {
    assert b / d - a / d == (b - a) / d;
    if a < b {
      DivPositive(b - a, d);
    }
  }

  lemma DivUnique(q: real, y: real, d: real)
    requires d > 0.0 && q * d == y
    ensures q == y / d
  {
    var r := y / d;
    assert r * d == y;
    assert (q - r) * d == 0.0;
  }

  /** Using up at least one shortest segment lowers the measure. */
  lemma StepsDecrease(x: real, y: real, d: real)
    requires d > 0.0 && x > 0.0 && y <= x - d
    ensures Steps(y, d) < Steps(x, d)
  {
    if y > 0.0 {
      DivMonotone(y, x - d, d);
      DivUnique(x / d - 1.0, x - d, d);
      assert y / d <= x / d - 1.0;
    }
  }

  /** Preconditions of one iteration: on entry the elapsed time either
      exceeds the line duration, or it is a non-negative time within the
      segment `lineIndex` (which then becomes the current one). */
  predicate WalkReady(m: Marker, lineIndex: int, lineDuration: real, elapsed: real) {
    && PathShaped(m)
    && AllPositive(m.durations)
    && DwellsOk(m.stations)
    && 0 <= lineIndex <= |m.latLngs| - 2
    && (elapsed > lineDuration || (elapsed >= 0.0 && lineDuration == m.durations[lineIndex]))
  }

  /** The marker holds at an interior-or-last waypoint that has a station. */
  predicate AtStation(m: Marker) {
    exists j :: 1 <= j < |m.latLngs| && j in m.stations && m.position == m.latLngs[j]
  }

  /** The dwell registered at waypoint `j`, or 0 when it has no station. */
  function Dwell(stations: map<int, real>, j: int): (r: real) {
    if j in stations then stations[j] else 0.0
  }

  /** The segment the loop moves to after segment `i` of a path with
      `segments` segments: the next one, or the first after the last. */
  function Succ(segments: int, i: int): (j: int) {
    if i + 1 >= segments then 0 else i + 1
  }

  /** The segment reached after `k` moves from segment `i`. */
  function After(segments: int, i: int, k: nat): (j: int)
    decreases k
  {
    if k == 0 then i else After(segments, Succ(segments, i), k - 1)
  }

  /** How many of `k` moves from segment `i` wrap to the first segment. */
  function Wraps(segments: int, i: int, k: nat): (w: nat)
    decreases k
  {
    if k == 0 then 0
    else (if i + 1 >= segments then 1 else 0) + Wraps(segments, Succ(segments, i), k - 1)
  }

  /** The time from the end of segment `i` to the end of the segment `k`
      moves later: each move waits out the dwell at the waypoint it leaves
      and then crosses the whole next segment. */
  function Reach(durations: seq<real>, stations: map<int, real>, i: int, k: nat): (t: real)
    requires 0 <= i < |durations|
    decreases k
  {
    if k == 0 then 0.0
    else
      var j := Succ(|durations|, i);
      Dwell(stations, i + 1) + durations[j] + Reach(durations, stations, j, k - 1)
  }

  /** What one iteration of the loop leads to: a final outcome, or the
      segment to test next with the time still to account for. */
  datatype Next =
    | Done(update: Update)
    | Continue(marker: Marker, lineIndex: int, lineDuration: real, elapsed: real)

  /** One iteration of the boundary-crossing loop: finish segment
      `lineIndex` (which took `lineDuration`), dwell at the station that ends
      it if there is one, then move to the next segment, wrap to the first
      when looping, or end the path. */
  function Iterate(m: Marker, lineIndex: int, lineDuration: real, elapsed: real): (n: Next)
    requires WalkReady(m, lineIndex, lineDuration, elapsed) && elapsed > lineDuration
    ensures n.Continue? ==>
              && WalkReady(n.marker, n.lineIndex, n.lineDuration, n.elapsed)
              && n.lineDuration == n.marker.durations[n.lineIndex]
              && 0.0 <= n.elapsed <= elapsed - lineDuration
              && n.marker == m.(events := n.marker.events)
              && LoopsAppended(m.events, n.marker.events)
              && (!m.loop ==> n.marker.events == m.events)
    ensures n.Done? && n.update.step.Hold? ==>
              && AtStation(n.update.marker)
              && n.update.marker == m.(position := n.update.marker.position)
    ensures n.Done? ==> n.update.step.Hold? || n.update.step.AtEnd?
    ensures n.Done? && n.update.step.AtEnd? ==>
              && !m.loop
              && SamePath(m, n.update.marker)
              && SameCursor(m, n.update.marker)
              && n.update.marker.position == Last(m.latLngs)
              && n.update.marker.state == Ended
              && n.update.marker.frame == (if m.state == Ended then m.frame else NoFrame)
              && (m.state == Ended ==> n.update.marker.events == m.events)
              && (m.state != Ended ==>
                    && |n.update.marker.events| == |m.events| + 1
                    && n.update.marker.events[..|m.events|] == m.events
                    && n.update.marker.events[|m.events|].End?
                    && n.update.marker.events[|m.events|].elapsedTime >= 0.0)
  {
    var afterLine := elapsed - lineDuration;
    var next := lineIndex + 1;
    if next in m.stations && afterLine < m.stations[next] then
      // still dwelling at the station that ends this segment
      var held := m.(position := m.latLngs[next]);
      assert held.position == held.latLngs[next];
      Done(Update(held, Hold))
    else
      var rest := if next in m.stations then afterLine - m.stations[next] else afterLine;
      if next >= |m.latLngs| - 1 then
        if m.loop then
          Continue(m.(events := m.events + [Loop(rest)]), 0, m.durations[0], rest)
        else
          Done(Update(Finish(m.(position := Last(m.latLngs)), rest), AtEnd))
      else
        Continue(m, next, m.durations[next], rest)
  }

  /** One pass exactly: it holds exactly when the waypoint ending segment
      `lineIndex` has a station whose dwell exceeds the time left past the
      segment's end, and then stands on that waypoint. Otherwise the dwell
      (or 0) is taken off; the pass moves to the next segment or wraps to
      the first one with exactly one `loop` carrying the time left, or,
      without loop, ends after the last segment with exactly one `end`
      carrying it. */
  lemma IteratePass(m: Marker, lineIndex: int, lineDuration: real, elapsed: real)
    requires WalkReady(m, lineIndex, lineDuration, elapsed) && elapsed > lineDuration
    ensures var n := Iterate(m, lineIndex, lineDuration, elapsed);
            var next := lineIndex + 1;
            var rest := elapsed - lineDuration - Dwell(m.stations, next);
            var wraps := next >= |m.latLngs| - 1;
            && (n.Done? && n.update.step.Hold? <==>
                  next in m.stations && elapsed - lineDuration < m.stations[next])
            && (n.Done? && n.update.step.Hold? ==> n.update.marker == m.(position := m.latLngs[next]))
            && (n.Done? && n.update.step.AtEnd? <==> n.Done? && !n.update.step.Hold? && wraps && !m.loop)
            && (n.Done? && n.update.step.AtEnd? && m.state != Ended ==>
                  n.update.marker.events == m.events + [End(rest)])
            && (n.Continue? ==>
                  && n.lineIndex == (if wraps then 0 else next)
                  && n.elapsed == rest
                  && n.marker.events == m.events + (if wraps then [Loop(rest)] else []))
  {
  }

  lemma LoopsAppendedTransitive(a: seq<Event>, b: seq<Event>, c: seq<Event>)
    ensures LoopsAppended(a, b) && LoopsAppended(b, c) ==> LoopsAppended(a, c)
  {
    if LoopsAppended(a, b) && LoopsAppended(b, c) {
      assert c[..|a|] == c[..|b|][..|a|];
    }
  }

  /** The rest of the loop from segment `lineIndex`, whose duration is
      `lineDuration` and which began `elapsed` ago. */
  function Walk(m: Marker, lineIndex: int, lineDuration: real, elapsed: real,
                timestamp: real, now: real): (u: Update)
    requires WalkReady(m, lineIndex, lineDuration, elapsed)
    decreases Steps(elapsed - lineDuration, Min(m.durations))
    ensures SamePath(m, u.marker)
    ensures u.step.Advance? || u.step.Hold? ==>
              && LoopsAppended(m.events, u.marker.events)
              && (!m.loop ==> u.marker.events == m.events)
    ensures m.loop ==> !u.step.AtEnd? && u.marker.state == m.state
  {
    if elapsed <= lineDuration then
      // the elapsed time fits in this segment: make it current, re-anchor
      var loaded := LoadLine(m, lineIndex);
      Update(loaded.(startTimeStamp := timestamp - elapsed, startTime := now - elapsed),
             Advance(elapsed))
    else
      match Iterate(m, lineIndex, lineDuration, elapsed)
      case Done(u) => u
      case Continue(m', i, d, e) =>
        StepsDecrease(elapsed - lineDuration, e - d, Min(m.durations));
        var u := Walk(m', i, d, e, timestamp, now);
        LoopsAppendedTransitive(m.events, m'.events, u.marker.events);
        u
  }

  /** An advance lands on a loaded segment with the frame's time along it,
      re-anchors the segment's start at that time before the frame, and
      changes nothing else (but appends any `loop` events of wraps). */
  lemma {:induction false} WalkAdvance(m: Marker, lineIndex: int, lineDuration: real, elapsed: real,
                                       timestamp: real, now: real)
    requires WalkReady(m, lineIndex, lineDuration, elapsed)
    decreases Steps(elapsed - lineDuration, Min(m.durations))
    ensures var u := Walk(m, lineIndex, lineDuration, elapsed, timestamp, now);
            u.step.Advance? ==>
              && OnSegment(u.marker, u.marker.currentIndex)
              && 0.0 <= u.step.elapsedTime <= m.durations[u.marker.currentIndex]
              && u.marker.startTimeStamp == timestamp - u.step.elapsedTime
              && u.marker.startTime == now - u.step.elapsedTime
              && (elapsed > lineDuration ==> u.step.elapsedTime <= elapsed - lineDuration)
              && (elapsed <= lineDuration ==> u.step.elapsedTime == elapsed)
              && u.marker == m.(currentIndex := u.marker.currentIndex,
                                currentDuration := u.marker.currentDuration,
                                currentLine := u.marker.currentLine,
                                startTime := u.marker.startTime,
                                startTimeStamp := u.marker.startTimeStamp,
                                events := u.marker.events)
  {
    if elapsed > lineDuration {
      match Iterate(m, lineIndex, lineDuration, elapsed)
      case Done(_) =>
      case Continue(m', i, d, e) =>
        StepsDecrease(elapsed - lineDuration, e - d, Min(m.durations));
        WalkAdvance(m', i, d, e, timestamp, now);
    }
  }

  /** A hold leaves the marker on a station's waypoint and changes nothing
      but the position (and any `loop` events of wraps before it). */
  lemma {:induction false} WalkHold(m: Marker, lineIndex: int, lineDuration: real, elapsed: real,
                                    timestamp: real, now: real)
    requires WalkReady(m, lineIndex, lineDuration, elapsed)
    decreases Steps(elapsed - lineDuration, Min(m.durations))
    ensures var u := Walk(m, lineIndex, lineDuration, elapsed, timestamp, now);
            u.step.Hold? ==>
              && AtStation(u.marker)
              && u.marker == m.(position := u.marker.position, events := u.marker.events)
  {
    if elapsed > lineDuration {
      match Iterate(m, lineIndex, lineDuration, elapsed)
      case Done(_) =>
      case Continue(m', i, d, e) =>
        StepsDecrease(elapsed - lineDuration, e - d, Min(m.durations));
        WalkHold(m', i, d, e, timestamp, now);
    }
  }

  /** Reaching the end of a non-looping path: the marker sits on the last
      waypoint, has ended, and (unless it had already ended) fired exactly
      one `end` event with a non-negative leftover time; the cursor and
      anchors are untouched. */
  lemma {:induction false} WalkAtEnd(m: Marker, lineIndex: int, lineDuration: real, elapsed: real,
                                     timestamp: real, now: real)
    requires WalkReady(m, lineIndex, lineDuration, elapsed)
    decreases Steps(elapsed - lineDuration, Min(m.durations))
    ensures var u := Walk(m, lineIndex, lineDuration, elapsed, timestamp, now);
            u.step.AtEnd? ==>
              && !m.loop
              && u.marker == m.(position := Last(m.latLngs), state := Ended,
                                frame := u.marker.frame, events := u.marker.events)
              && u.marker.state == Ended
              && u.marker.frame == (if m.state == Ended then m.frame else NoFrame)
              && (m.state == Ended ==> u.marker.events == m.events)
              && (m.state != Ended ==>
                    && |u.marker.events| == |m.events| + 1
                    && u.marker.events[..|m.events|] == m.events
                    && u.marker.events[|m.events|].End?
                    && u.marker.events[|m.events|].elapsedTime >= 0.0)
  {
    if elapsed > lineDuration {
      match Iterate(m, lineIndex, lineDuration, elapsed)
      case Done(_) =>
      case Continue(m', i, d, e) =>
        StepsDecrease(elapsed - lineDuration, e - d, Min(m.durations));
        WalkAtEnd(m', i, d, e, timestamp, now);
    }
  }

  /** The time accounting of a crossing from the end of segment `i` with
      `overshoot` past it that lands `k + 1` moves on, on segment `index`
      at time `t` along it, having fired `loops` `loop` events: the
      overshoot is the dwells and whole segments crossed plus `t`, one
      `loop` per wrap, and no wrap without loop. The loop leaves a segment
      only strictly past its end, so the last move leaves a positive time
      unless a positive dwell was waited out on it. */
  predicate AdvanceAccount(durations: seq<real>, stations: map<int, real>, loop: bool, i: int,
                           overshoot: real, index: int, t: real, loops: int, k: nat)
    requires 0 <= i < |durations|
  {
    && index == After(|durations|, i, k + 1)
    && overshoot == Reach(durations, stations, i, k) + Dwell(stations, After(|durations|, i, k) + 1) + t
    && (t > 0.0 || Dwell(stations, After(|durations|, i, k) + 1) > 0.0)
    && (!loop ==> i + k + 1 < |durations|)
    && loops == Wraps(|durations|, i, k + 1)
  }

  /** `AdvanceAccount` of the update `u` of a crossing from the end of
      segment `lineIndex`, which took `lineDuration`, `elapsed` after it
      began. */
  predicate Advanced(m: Marker, lineIndex: int, lineDuration: real, elapsed: real, u: Update, k: nat)
    requires 0 <= lineIndex < |m.durations|
  {
    && u.step.Advance?
    && AdvanceAccount(m.durations, m.stations, m.loop, lineIndex, elapsed - lineDuration,
                      u.marker.currentIndex, u.step.elapsedTime, |u.marker.events| - |m.events|, k)
  }

  /** One more move in front of an accounted crossing. */
  lemma AdvanceAccountStep(durations: seq<real>, stations: map<int, real>, loop: bool, i: int, j: int,
                           overshoot: real, index: int, t: real, loops: int, k: nat)
    requires 0 <= i < |durations| && 0 <= j < |durations| && j == Succ(|durations|, i)
    requires !loop ==> i + 1 < |durations|
    requires AdvanceAccount(durations, stations, loop, j,
                            overshoot - Dwell(stations, i + 1) - durations[j], index, t, loops, k)
    ensures AdvanceAccount(durations, stations, loop, i, overshoot, index, t,
                           loops + (if i + 1 >= |durations| then 1 else 0), k + 1)
  {
    assert After(|durations|, i, k + 2) == After(|durations|, j, k + 1);
    assert After(|durations|, i, k + 1) == After(|durations|, j, k);
  }

  /** Landing on the segment right after the first pass is accounted with
      no further moves. */
  lemma AdvancedAtOnce(m: Marker, lineIndex: int, lineDuration: real, elapsed: real, timestamp: real, now: real)
    requires WalkReady(m, lineIndex, lineDuration, elapsed) && elapsed > lineDuration
    ensures var n := Iterate(m, lineIndex, lineDuration, elapsed);
            n.Continue? && n.elapsed <= n.lineDuration ==>
              Advanced(m, lineIndex, lineDuration, elapsed,
                       Walk(n.marker, n.lineIndex, n.lineDuration, n.elapsed, timestamp, now), 0)
  {
    assert After(|m.durations|, lineIndex, 1) == Succ(|m.durations|, lineIndex);
    assert Reach(m.durations, m.stations, lineIndex, 0) == 0.0;
  }

  /** One more move in front of an accounted crossing, from the marker `m'`
      that the first pass left. */
  lemma AdvancedStep(m: Marker, m': Marker, lineIndex: int, lineDuration: real, elapsed: real,
                     j: int, d: real, e: real, u: Update, k: nat)
    requires PathShaped(m) && 0 <= lineIndex < |m.durations| && SamePath(m, m')
    requires j == Succ(|m.durations|, lineIndex) && d == m.durations[j]
    requires e == elapsed - lineDuration - Dwell(m.stations, lineIndex + 1)
    requires !m.loop ==> lineIndex + 1 < |m.durations|
    requires |m'.events| == |m.events| + (if lineIndex + 1 >= |m.durations| then 1 else 0)
    requires Advanced(m', j, d, e, u, k)
    ensures Advanced(m, lineIndex, lineDuration, elapsed, u, k + 1)
  {
    AdvanceAccountStep(m.durations, m.stations, m.loop, lineIndex, j, elapsed - lineDuration,
                       u.marker.currentIndex, u.step.elapsedTime, |u.marker.events| - |m'.events|, k);
  }

  /** Time accounting of a crossing that lands on a segment: see
      `AdvanceAccount`, counted from the end of segment `lineIndex`. */
  lemma {:induction false} WalkAdvanceTime(m: Marker, lineIndex: int, lineDuration: real, elapsed: real,
                                           timestamp: real, now: real)
    requires WalkReady(m, lineIndex, lineDuration, elapsed) && elapsed > lineDuration
    decreases Steps(elapsed - lineDuration, Min(m.durations))
    ensures var u := Walk(m, lineIndex, lineDuration, elapsed, timestamp, now);
            u.step.Advance? ==> exists k: nat :: Advanced(m, lineIndex, lineDuration, elapsed, u, k)
  {
    match Iterate(m, lineIndex, lineDuration, elapsed)
    case Done(_) =>
    case Continue(m', j, d, e) =>
      StepsDecrease(elapsed - lineDuration, e - d, Min(m.durations));
      var u := Walk(m', j, d, e, timestamp, now);
      if e <= d {
        AdvancedAtOnce(m, lineIndex, lineDuration, elapsed, timestamp, now);
      } else {
        WalkAdvanceTime(m', j, d, e, timestamp, now);
        if u.step.Advance? {
          var k: nat :| Advanced(m', j, d, e, u, k);
          AdvancedStep(m, m', lineIndex, lineDuration, elapsed, j, d, e, u, k);
        }
      }
  }

  /** The time accounting of a crossing from the end of segment `i` with
      `overshoot` past it that holds after `k` moves: the segment then
      finished ends at a waypoint with a station, the time left past its end
      is positive and below that station's dwell, the marker stands on the
      waypoint, one `loop` fired per wrap, and no wrap without loop. */
  predicate HoldAccount(latLngs: seq<LatLng>, durations: seq<real>, stations: map<int, real>, loop: bool,
                        i: int, overshoot: real, position: LatLng, loops: int, k: nat)
    requires 0 <= i < |durations| && |latLngs| == |durations| + 1
  {
    var j := After(|durations|, i, k);
    && 0 <= j < |durations|
    && j + 1 in stations
    && position == latLngs[j + 1]
    && 0.0 < overshoot - Reach(durations, stations, i, k) < stations[j + 1]
    && (!loop ==> i + k < |durations|)
    && loops == Wraps(|durations|, i, k)
  }

  /** `HoldAccount` of the update `u` of a crossing from the end of segment
      `lineIndex`, which took `lineDuration`, `elapsed` after it began. */
  predicate Held(m: Marker, lineIndex: int, lineDuration: real, elapsed: real, u: Update, k: nat)
    requires PathShaped(m) && 0 <= lineIndex < |m.durations|
  {
    && u.step.Hold?
    && HoldAccount(m.latLngs, m.durations, m.stations, m.loop, lineIndex, elapsed - lineDuration,
                   u.marker.position, |u.marker.events| - |m.events|, k)
  }

  /** One more move in front of an accounted hold. */
  lemma HoldAccountStep(latLngs: seq<LatLng>, durations: seq<real>, stations: map<int, real>, loop: bool,
                        i: int, j: int, overshoot: real, position: LatLng, loops: int, k: nat)
    requires 0 <= i < |durations| && |latLngs| == |durations| + 1
    requires 0 <= j < |durations| && j == Succ(|durations|, i)
    requires !loop ==> i + 1 < |durations|
    requires HoldAccount(latLngs, durations, stations, loop, j,
                         overshoot - Dwell(stations, i + 1) - durations[j], position, loops, k)
    ensures HoldAccount(latLngs, durations, stations, loop, i, overshoot, position,
                        loops + (if i + 1 >= |durations| then 1 else 0), k + 1)
  {
    assert After(|durations|, i, k + 1) == After(|durations|, j, k);
  }

  /** A hold on the first pass is accounted with no moves. */
  lemma HeldAtOnce(m: Marker, lineIndex: int, lineDuration: real, elapsed: real)
    requires WalkReady(m, lineIndex, lineDuration, elapsed) && elapsed > lineDuration
    ensures var n := Iterate(m, lineIndex, lineDuration, elapsed);
            n.Done? && n.update.step.Hold? ==> Held(m, lineIndex, lineDuration, elapsed, n.update, 0)
  {
    assert Reach(m.durations, m.stations, lineIndex, 0) == 0.0;
  }

  /** Time accounting of a crossing that holds: see `HoldAccount`, counted
      from the end of segment `lineIndex`. */
  lemma {:induction false} WalkHoldTime(m: Marker, lineIndex: int, lineDuration: real, elapsed: real,
                                        timestamp: real, now: real)
    requires WalkReady(m, lineIndex, lineDuration, elapsed) && elapsed > lineDuration
    decreases Steps(elapsed - lineDuration, Min(m.durations))
    ensures var u := Walk(m, lineIndex, lineDuration, elapsed, timestamp, now);
            u.step.Hold? ==>
              exists k: nat :: Held(m, lineIndex, lineDuration, elapsed, u, k)
  {
    var segments := |m.durations|;
    match Iterate(m, lineIndex, lineDuration, elapsed)
    case Done(v) =>
      HeldAtOnce(m, lineIndex, lineDuration, elapsed);
    case Continue(m', j, d, e) =>
      StepsDecrease(elapsed - lineDuration, e - d, Min(m.durations));
      var u := Walk(m', j, d, e, timestamp, now);
      assert |m'.events| == |m.events| + (if lineIndex + 1 >= segments then 1 else 0);
      if e > d {
        WalkHoldTime(m', j, d, e, timestamp, now);
        if u.step.Hold? {
          var k: nat :| Held(m', j, d, e, u, k);
          HoldAccountStep(m.latLngs, m.durations, m.stations, m.loop, lineIndex, j, elapsed - lineDuration,
                          u.marker.position, |u.marker.events| - |m'.events|, k);
          assert Held(m, lineIndex, lineDuration, elapsed, u, k + 1);
        }
      }
  }

  /** The time accounting of the update `u` of a crossing from the end of
      segment `lineIndex`, which took `lineDuration`, `elapsed` after it
      began, that reaches the end of the path after `k` moves: the last
      segment is then finished, and the `end` event carries the overshoot
      less the dwells and segments crossed and the dwell at the last
      waypoint. The last segment is left only strictly past its end, so that
      leftover is positive unless the last waypoint has a positive dwell. */
  predicate Finished(m: Marker, lineIndex: int, lineDuration: real, elapsed: real, u: Update, k: nat)
    requires 0 <= lineIndex < |m.durations|
  {
    && u.step.AtEnd?
    && lineIndex + k == |m.durations| - 1
    && (elapsed - lineDuration - Reach(m.durations, m.stations, lineIndex, k) - Dwell(m.stations, |m.durations|) > 0.0
        || Dwell(m.stations, |m.durations|) > 0.0)
    && (m.state != Ended ==>
          u.marker.events == m.events + [End(elapsed - lineDuration
                                             - Reach(m.durations, m.stations, lineIndex, k)
                                             - Dwell(m.stations, |m.durations|))])
  }

  /** Reaching the end on the first pass is accounted with no moves. */
  lemma FinishedAtOnce(m: Marker, lineIndex: int, lineDuration: real, elapsed: real)
    requires WalkReady(m, lineIndex, lineDuration, elapsed) && elapsed > lineDuration
    ensures var n := Iterate(m, lineIndex, lineDuration, elapsed);
            n.Done? && n.update.step.AtEnd? ==> Finished(m, lineIndex, lineDuration, elapsed, n.update, 0)
  {
    assert Reach(m.durations, m.stations, lineIndex, 0) == 0.0;
  }

  /** One more move, without a wrap, in front of an accounted end. */
  lemma FinishedStep(m: Marker, lineIndex: int, lineDuration: real, elapsed: real,
                     d: real, e: real, u: Update, k: nat)
    requires PathShaped(m) && 0 <= lineIndex && lineIndex + 1 < |m.durations|
    requires d == m.durations[lineIndex + 1]
    requires e == elapsed - lineDuration - Dwell(m.stations, lineIndex + 1)
    requires Finished(m, lineIndex + 1, d, e, u, k)
    ensures Finished(m, lineIndex, lineDuration, elapsed, u, k + 1)
  {
    assert Succ(|m.durations|, lineIndex) == lineIndex + 1;
    assert Reach(m.durations, m.stations, lineIndex, k + 1)
        == Dwell(m.stations, lineIndex + 1) + d + Reach(m.durations, m.stations, lineIndex + 1, k);
  }

  /** Time accounting of a crossing that reaches the end: see `Finished`. */
  lemma {:induction false} WalkEndTime(m: Marker, lineIndex: int, lineDuration: real, elapsed: real,
                                       timestamp: real, now: real)
    requires WalkReady(m, lineIndex, lineDuration, elapsed) && elapsed > lineDuration
    decreases Steps(elapsed - lineDuration, Min(m.durations))
    ensures var u := Walk(m, lineIndex, lineDuration, elapsed, timestamp, now);
            u.step.AtEnd? ==> exists k: nat :: Finished(m, lineIndex, lineDuration, elapsed, u, k)
  {
    match Iterate(m, lineIndex, lineDuration, elapsed)
    case Done(v) =>
      FinishedAtOnce(m, lineIndex, lineDuration, elapsed);
    case Continue(m', j, d, e) =>
      StepsDecrease(elapsed - lineDuration, e - d, Min(m.durations));
      var u := Walk(m', j, d, e, timestamp, now);
      if e > d && !m.loop {
        WalkEndTime(m', j, d, e, timestamp, now);
        if u.step.AtEnd? {
          var k: nat :| Finished(m', j, d, e, u, k);
          assert m' == m;
          FinishedStep(m, lineIndex, lineDuration, elapsed, d, e, u, k);
        }
      }
  }

  /** `updateLine`: the time elapsed since the current segment began, if it
      still fits in the segment; otherwise the boundary-crossing loop. */
  function UpdateLine(m: Marker, timestamp: real, now: real): (u: Update)
    requires Valid(m)
    ensures timestamp - m.startTimeStamp <= m.currentDuration ==>
              u == Update(m, Advance(timestamp - m.startTimeStamp))
    ensures timestamp - m.startTimeStamp > m.currentDuration && u.step.Advance? ==>
              && OnSegment(u.marker, u.marker.currentIndex)
              && 0.0 <= u.step.elapsedTime <= u.marker.currentDuration
              && u.step.elapsedTime <= timestamp - m.startTimeStamp - m.currentDuration
              && u.marker.startTimeStamp == timestamp - u.step.elapsedTime
              && u.marker.startTime == now - u.step.elapsedTime
    ensures u.step.Advance? ==>
              u.marker.position == m.position && u.marker.state == m.state
              && u.marker.frame == m.frame && u.marker.pauseStartTime == m.pauseStartTime
    ensures u.step.Hold? ==>
              && AtStation(u.marker)
              && u.marker == m.(position := u.marker.position, events := u.marker.events)
    ensures u.step.Advance? || u.step.Hold? ==>
              && LoopsAppended(m.events, u.marker.events)
              && (!m.loop ==> u.marker.events == m.events)
    ensures u.step.AtEnd? ==>
              && !m.loop
              && u.marker.position == Last(m.latLngs)
              && u.marker.state == Ended
              && u.marker.frame == NoFrame
              && (m.state != Ended ==>
                    && |u.marker.events| == |m.events| + 1
                    && u.marker.events[..|m.events|] == m.events
                    && u.marker.events[|m.events|].End?
                    && u.marker.events[|m.events|].elapsedTime >= 0.0)
    ensures m.loop ==> !u.step.AtEnd? && u.marker.state == m.state
    ensures u.marker.state != Ended ==> u.marker.state == m.state
    ensures u.marker.pauseStartTime == m.pauseStartTime
    ensures SamePath(m, u.marker) && Valid(u.marker)
  {
    var elapsed := timestamp - m.startTimeStamp;
    if elapsed <= m.currentDuration then Update(m, Advance(elapsed))
    else
      WalkAdvance(m, m.currentIndex, m.currentDuration, elapsed, timestamp, now);
      WalkHold(m, m.currentIndex, m.currentDuration, elapsed, timestamp, now);
      WalkAtEnd(m, m.currentIndex, m.currentDuration, elapsed, timestamp, now);
      Walk(m, m.currentIndex, m.currentDuration, elapsed, timestamp, now)
  }

  /** The time accounting of a frame that overshoots the current segment
      (`elapsed` past the segment's start): the segment it lands on and the
      time along it, the station it holds at, or the leftover it ends with,
      are those that the dwells and durations crossed leave. */
  lemma UpdateLineTime(m: Marker, timestamp: real, now: real, elapsed: real)
    requires Valid(m) && elapsed == timestamp - m.startTimeStamp && elapsed > m.currentDuration
    ensures var u := UpdateLine(m, timestamp, now);
            && (u.step.Advance? ==> exists k: nat :: Advanced(m, m.currentIndex, m.currentDuration, elapsed, u, k))
            && (u.step.Hold? ==> exists k: nat :: Held(m, m.currentIndex, m.currentDuration, elapsed, u, k))
            && (u.step.AtEnd? ==> exists k: nat :: Finished(m, m.currentIndex, m.currentDuration, elapsed, u, k))
  {
    var u := Walk(m, m.currentIndex, m.currentDuration, elapsed, timestamp, now);
    assert UpdateLine(m, timestamp, now) == u;
    WalkAdvanceTime(m, m.currentIndex, m.currentDuration, elapsed, timestamp, now);
    WalkHoldTime(m, m.currentIndex, m.currentDuration, elapsed, timestamp, now);
    WalkEndTime(m, m.currentIndex, m.currentDuration, elapsed, timestamp, now);
  }

  /** A looping marker on the last segment of a three-waypoint path, with a
      100 ms dwell at the middle waypoint: every segment takes 10 ms. */
  function DwellAfterWrap(): (m: Marker) {
    Marker(latLngs := [LatLng(0.0, 0.0), LatLng(1.0, 0.0), LatLng(2.0, 0.0)],
           durations := [10.0, 10.0],
           stations := map[1 := 100.0],
           loop := true,
           autostart := false,
           currentIndex := 1,
           currentDuration := 10.0,
           currentLine := [LatLng(1.0, 0.0), LatLng(2.0, 0.0)],
           state := Run,
           startTime := 0.0,
           startTimeStamp := 0.0,
           pauseStartTime := 0.0,
           position := LatLng(1.0, 0.0),
           frame := NextFrame,
           events := [])
  }

  /** A hold does not move the cursor, so every frame of a dwell reached
      through a wrap crosses the wrap again and fires `loop` again: frames at
      25 ms and 41 ms both hold at the middle waypoint and fire `loop(15)`
      and then `loop(31)`. */
  lemma DwellAfterWrapRefiresLoop()
    ensures Valid(DwellAfterWrap())
    ensures var first := UpdateLine(DwellAfterWrap(), 25.0, 25.0);
            && first.step == Hold
            && first.marker.position == LatLng(1.0, 0.0)
            && first.marker.events == [Loop(15.0)]
            && var second := UpdateLine(first.marker, 41.0, 41.0);
               && second.step == Hold
               && second.marker.events == [Loop(15.0), Loop(31.0)]
  {
    var m := DwellAfterWrap();
    var first := m.(position := LatLng(1.0, 0.0), events := [Loop(15.0)]);
    assert Iterate(m, 1, 10.0, 25.0) == Continue(m.(events := [Loop(15.0)]), 0, 10.0, 15.0);
    assert Iterate(m.(events := [Loop(15.0)]), 0, 10.0, 15.0) == Done(Update(first, Hold));
    assert UpdateLine(m, 25.0, 25.0) == Update(first, Hold);
    var second := first.(events := [Loop(15.0), Loop(31.0)]);
    assert Iterate(first, 1, 10.0, 41.0) == Continue(second, 0, 10.0, 31.0);
    assert Iterate(second, 0, 10.0, 31.0) == Done(Update(second, Hold));
  }

  /** The source's `updateLine`, with its `while` loop, on the immutable marker. */
  method UpdateLineLoop(m: Marker, timestamp: real, now: real) returns (m': Marker, step: Step)
    requires Valid(m)
    ensures Update(m', step) == UpdateLine(m, timestamp, now)
  {
    var elapsed := timestamp - m.startTimeStamp;
    if elapsed <= m.currentDuration {
      return m, Advance(elapsed);
    }
    m', step := CrossBoundaries(m, m.currentIndex, m.currentDuration, elapsed, timestamp, now);
  }

  /** The `while` loop: iterate until the elapsed time fits in a segment,
      then make that segment current and re-anchor the timing. */
  method CrossBoundaries(m: Marker, index: int, duration: real, elapsed0: real,
                         timestamp: real, now: real) returns (m': Marker, step: Step)
    requires WalkReady(m, index, duration, elapsed0)
    ensures Update(m', step) == Walk(m, index, duration, elapsed0, timestamp, now)
  {
    var cur, lineIndex, lineDuration, elapsed := m, index, duration, elapsed0;
    while elapsed > lineDuration
      invariant WalkReady(cur, lineIndex, lineDuration, elapsed)
      invariant cur.durations == m.durations
      invariant Walk(cur, lineIndex, lineDuration, elapsed, timestamp, now)
             == Walk(m, index, duration, elapsed0, timestamp, now)
      decreases Steps(elapsed - lineDuration, Min(m.durations))
    {
      match Iterate(cur, lineIndex, lineDuration, elapsed)
      case Done(u) =>
        return u.marker, u.step;
      case Continue(c, i, d, e) =>
        StepsDecrease(elapsed - lineDuration, e - d, Min(m.durations));
        cur, lineIndex, lineDuration, elapsed := c, i, d, e;
    }
    m' := LoadLine(cur, lineIndex).(startTimeStamp := timestamp - elapsed, startTime := now - elapsed);
    step := Advance(elapsed);
  }
}

=== FILE: durations.dfy ===
/**
 Segment durations: their sum, their least element, and the split of a total
 duration over segments in proportion to the segments' lengths. Segment
 lengths are taken as given non-negative numbers; the geodesic distance that
 produces them belongs to the host mapping library.
 */
module Durations {

  /** Sum of a sequence, accumulated from the front as the source's loop does. */
  function Sum(s: seq<real>): (r: real) {
    if |s| == 0 then 0.0 else Sum(s[..|s| - 1]) + s[|s| - 1]
  }

  predicate AllNonNegative(s: seq<real>) {
    forall i :: 0 <= i < |s| ==> s[i] >= 0.0
  }

  predicate AllPositive(s: seq<real>) {
    forall i :: 0 <= i < |s| ==> s[i] > 0.0
  }

  /** The least element of a non-empty sequence. */
  function Min(s: seq<real>): (m: real)
    requires |s| > 0
    ensures m in s
    ensures forall i :: 0 <= i < |s| ==> m <= s[i]
  {
    if |s| == 1 then s[0]
    else
      var rest := Min(s[1..]);
      assert forall i :: 1 <= i < |s| ==> s[i] == s[1..][i - 1];
      if s[0] <= rest then s[0] else rest
  }

  /** Accumulates the total length of a path from its per-segment lengths,
      one segment at a time. */
  method TotalDistance(distances: seq<real>) returns (total: real)
    ensures total == Sum(distances)
    ensures AllNonNegative(distances) ==> total >= 0.0
  {
    total := 0.0;
    var i := 0;
    while i < |distances|
      invariant 0 <= i <= |distances|
      invariant total == Sum(distances[..i])
      invariant AllNonNegative(distances) ==> total >= 0.0
    {
      assert distances[..i + 1][..i] == distances[..i];
      total := total + distances[i];
      i := i + 1;
    }
    assert distances[..i] == distances;
  }

  /** Splits `duration` over segments of the given lengths, each segment
      getting `duration * distance / totalDistance`. */
  function CreateDurations(distances: seq<real>, duration: real): (r: seq<real>)
    requires AllNonNegative(distances) && Sum(distances) > 0.0
    ensures |r| == |distances|
    ensures forall i :: 0 <= i < |r| ==> r[i] * Sum(distances) == duration * distances[i]
    ensures duration >= 0.0 ==> AllNonNegative(r)
  {
    var ratio := duration / Sum(distances);
    var r := seq(|distances|, i requires 0 <= i < |distances| => distances[i] * ratio);
    forall i | 0 <= i < |r|
      ensures r[i] * Sum(distances) == duration * distances[i]
      ensures duration >= 0.0 ==> r[i] >= 0.0
    {
      ScaledShare(distances[i], duration, Sum(distances));
    }
    r
  }

  lemma ScaledShare(d: real, duration: real, total: real)
    requires d >= 0.0 && total > 0.0
    ensures (d * (duration / total)) * total == duration * d
    ensures duration >= 0.0 ==> d * (duration / total) >= 0.0
  {
    var ratio := duration / total;
    assert ratio * total == duration;
    assert (d * ratio) * total == d * (ratio * total);
    if duration >= 0.0 {
      assert ratio >= 0.0;
    }
  }

  lemma {:induction false} SumScaled(s: seq<real>, r: seq<real>, c: real)
    requires |r| == |s|
    requires forall i :: 0 <= i < |s| ==> r[i] == s[i] * c
    ensures Sum(r) == Sum(s) * c
  {
    if |s| > 0 {
      var n := |s| - 1;
      SumScaled(s[..n], r[..n], c);
      assert Sum(r) == Sum(s[..n]) * c + s[n] * c;
      assert Sum(s[..n]) * c + s[n] * c == (Sum(s[..n]) + s[n]) * c;
    }
  }

  /** The split durations add up to the requested total. */
  lemma CreateDurationsSum(distances: seq<real>, duration: real)
    requires AllNonNegative(distances) && Sum(distances) > 0.0
    ensures Sum(CreateDurations(distances, duration)) == duration
  {
    var total := Sum(distances);
    var ratio := duration / total;
    var r := CreateDurations(distances, duration);
    SumScaled(distances, r, ratio);
    assert ratio * total == duration;
  }

  /** Shares of `duration` proportional to weights over `total` (as
      `CreateDurations` returns them, with the segment lengths as weights and
      their sum as total) stand in the ratio of their weights. */
  lemma SharesInRatio(r: seq<real>, weights: seq<real>, total: real, duration: real, i: int, j: int)
    requires total > 0.0 && |r| == |weights|
    requires forall k :: 0 <= k < |r| ==> r[k] * total == duration * weights[k]
    requires 0 <= i < |r| && 0 <= j < |r|
    ensures r[i] * weights[j] == r[j] * weights[i]
  {
    CrossMultiply(r[i], r[j], weights[i], weights[j], total, duration);
  }

  lemma CrossMultiply(ri: real, rj: real, di: real, dj: real, total: real, duration: real)
    requires total > 0.0 && ri * total == duration * di && rj * total == duration * dj
    ensures ri * dj == rj * di
  {
    assert (ri * dj) * total == (ri * total) * dj;
    assert (rj * di) * total == (rj * total) * di;
    assert (ri * dj - rj * di) * total == 0.0;
  }
}

=== FILE: geo.dfy ===
/**
 Coordinates and the clamped linear interpolation the marker uses to place
 itself between the two ends of its current segment. Interpolation is linear
 in (lat, lng) space, with no great-circle correction.
 */
module Geo {

  /** A geographic point, in degrees. */
  datatype LatLng = LatLng(lat: real, lng: real)

  /** `x` lies in the closed interval spanned by `a` and `b`, whichever is larger. */
  predicate InSpan(a: real, b: real, x: real) {
    if a <= b then a <= x <= b else b <= x <= a
  }

  /** `q` lies in the axis-aligned box spanned by `p1` and `p2`. */
  predicate OnSegmentBox(p1: LatLng, p2: LatLng, q: LatLng) {
    InSpan(p1.lat, p2.lat, q.lat) && InSpan(p1.lng, p2.lng, q.lng)
  }

  /** The raw quotient `t / duration` as the source computes it in floating
      point. A zero duration divides to +Infinity, -Infinity or NaN; after the
      clamp below these behave exactly like 1, 0 and 0, so they are written
      as such. */
  function RawFraction(duration: real, t: real): (r: real) {
    if duration != 0.0 then t / duration
    else if t > 0.0 then 1.0
    else 0.0
  }

  /** The fraction of the segment covered, clamped to [0, 1]. */
  function Fraction(duration: real, t: real): (k: real)
    ensures 0.0 <= k <= 1.0
    ensures duration > 0.0 && t <= 0.0 ==> k == 0.0
    ensures duration > 0.0 && t >= duration ==> k == 1.0
    ensures duration > 0.0 && 0.0 < t < duration ==> k * duration == t
    ensures duration == 0.0 ==> (k == 1.0 <==> t > 0.0)
  {
    var raw := RawFraction(duration, t);
    var k := if raw > 0.0 then raw else 0.0;
    DivideThenScale(t, duration);
    if k > 1.0 then 1.0 else k
  }

  /** Facts about `t / d` for a positive `d`, comparing `t` with 0 and `d`. */
  lemma DivideThenScale(t: real, d: real)
    ensures d > 0.0 ==> (t / d) * d == t
    ensures d > 0.0 && t > 0.0 ==> t / d > 0.0
    ensures d > 0.0 && t < d ==> t / d < 1.0
    ensures d > 0.0 && t >= d ==> t / d >= 1.0
  {
    if d > 0.0 {
      QuotientPositive(t, d);
      QuotientBelowOne(t, d);
      QuotientAtLeastOne(t, d);
    }
  }

  lemma QuotientPositive(t: real, d: real)
    requires d > 0.0
    ensures t > 0.0 ==> t / d > 0.0
  {
    var q := t / d;
    assert q * d == t;
    if t > 0.0 && q <= 0.0 {
      NonNegProduct(-q, d);
      assert (-q) * d == -(q * d);
    }
  }

  lemma QuotientBelowOne(t: real, d: real)
    requires d > 0.0
    ensures t < d ==> t / d < 1.0
  {
    var q := t / d;
    assert q * d == t;
    if t < d && q >= 1.0 {
      NonNegProduct(q - 1.0, d);
    }
  }

  lemma QuotientAtLeastOne(t: real, d: real)
    requires d > 0.0
    ensures t >= d ==> t / d >= 1.0
  {
    var q := t / d;
    assert q * d == t;
    if q < 1.0 {
      BelowOneShrinks(q, d);
      assert q * d < d;
    }
  }

  lemma NonNegProduct(x: real, y: real)
    requires x >= 0.0 && y >= 0.0
    ensures x * y >= 0.0
  {
  }

  lemma BelowOneShrinks(q: real, d: real)
    requires q < 1.0 && d > 0.0
    ensures q * d < d
  {
    var r := 1.0 - q;
    assert r * d > 0.0;
    assert r * d == d - q * d;
  }

  /** Scaling a non-negative length by a fraction stays within the length. */
  lemma ScaleWithin(k: real, x: real)
    requires 0.0 <= k <= 1.0 && x >= 0.0
    ensures 0.0 <= k * x <= x
  {
    NonNegProduct(k, x);
    NonNegProduct(1.0 - k, x);
    assert (1.0 - k) * x == x - k * x;
  }

  /** One coordinate moved a fraction `k` of the way from `a` to `b`. */
  function Lerp(a: real, b: real, k: real): (r: real) {
    a + k * (b - a)
  }

  lemma LerpInSpan(a: real, b: real, k: real)
    requires 0.0 <= k <= 1.0
    ensures InSpan(a, b, Lerp(a, b, k))
  {
    var x := k * (b - a);
    assert Lerp(a, b, k) == a + x;
    if a <= b {
      ScaleWithin(k, b - a);
    } else {
      ScaleWithin(k, a - b);
      assert x == -(k * (a - b));
    }
  }

  /** The position at elapsed time `t` on a segment from `p1` to `p2`
      that takes `duration` milliseconds. */
  function Interpolate(p1: LatLng, p2: LatLng, duration: real, t: real): (r: LatLng)
    ensures OnSegmentBox(p1, p2, r)
    ensures duration > 0.0 && t <= 0.0 ==> r == p1
    ensures duration > 0.0 && t >= duration ==> r == p2
    ensures duration == 0.0 ==> r == (if t > 0.0 then p2 else p1)
    ensures duration > 0.0 && 0.0 < t < duration ==>
              r.lat == p1.lat + (t / duration) * (p2.lat - p1.lat) &&
              r.lng == p1.lng + (t / duration) * (p2.lng - p1.lng)
  {
    var k := Fraction(duration, t);
    LerpInSpan(p1.lat, p2.lat, k);
    LerpInSpan(p1.lng, p2.lng, k);
    LatLng(Lerp(p1.lat, p2.lat, k), Lerp(p1.lng, p2.lng, k))
  }

  /** Progress along a segment never goes backwards as time advances. */
  lemma FractionMonotone(duration: real, t1: real, t2: real)
    requires duration >= 0.0 && t1 <= t2
    ensures Fraction(duration, t1) <= Fraction(duration, t2)
  {
    if duration > 0.0 {
      if 0.0 < t1 && t2 < duration {
        assert t1 / duration <= t2 / duration by {
          assert t2 / duration - t1 / duration == (t2 - t1) / duration;
        }
      }
    }
  }
}

=== FILE: properties.dfy ===
/**
 Properties that relate several operations: pausing and resuming does not
 move the marker.
 */
module Properties {
  import opened Durations
  import opened MarkerState
  import opened Crossing
  import opened Controls

  /** Two runs of the boundary-crossing loop over the same path that have the
      same time left past the end of the same segment take the same steps:
      they hold at the same station, advance by the same time or both end. */
  lemma {:induction false} WalkAgree(a: Marker, b: Marker, i: int,
                                     da: real, ea: real, db: real, eb: real,
                                     ts: real, now: real, ts': real, now': real)
    requires WalkReady(a, i, da, ea) && WalkReady(b, i, db, eb)
    requires SamePath(a, b)
    requires ea > da && ea - da == eb - db
    decreases Steps(ea - da, Min(a.durations))
    ensures Walk(a, i, da, ea, ts, now).step == Walk(b, i, db, eb, ts', now').step
    ensures Walk(a, i, da, ea, ts, now).step.Hold? ==>
              Walk(a, i, da, ea, ts, now).marker.position == Walk(b, i, db, eb, ts', now').marker.position
  {
    var na := Iterate(a, i, da, ea);
    var nb := Iterate(b, i, db, eb);
    assert na.Done? <==> nb.Done?;
    if na.Continue? {
      assert nb.lineIndex == na.lineIndex;
      assert nb.lineDuration == na.lineDuration;
      assert nb.elapsed == na.elapsed;
      if na.elapsed > na.lineDuration {
        StepsDecrease(ea - da, na.elapsed - na.lineDuration, Min(a.durations));
        WalkAgree(na.marker, nb.marker, na.lineIndex, na.lineDuration, na.elapsed,
                  nb.lineDuration, nb.elapsed, ts, now, ts', now');
      }
    }
  }

  /** A frame that overshoots the end of the current segment (`elapsed` past
      the segment's start) runs the boundary-crossing loop from the current
      segment. */
  lemma UpdateLineWalks(x: Marker, ts: real, now: real, elapsed: real)
    requires Valid(x) && elapsed == ts - x.startTimeStamp && elapsed > x.currentDuration
    ensures WalkReady(x, x.currentIndex, x.currentDuration, elapsed)
    ensures UpdateLine(x, ts, now) == Walk(x, x.currentIndex, x.currentDuration, elapsed, ts, now)
  {
  }

  /** Two frames on the same segment of the same path that overshoot the end
      of the segment by the same time cross the same boundaries: they take the
      same step and, when they hold, hold at the same place. */
  lemma UpdateLineAgree(x: Marker, y: Marker, tx: real, nx: real, ty: real, ny: real, ex: real, ey: real)
    requires Valid(x) && Valid(y) && SamePath(x, y) && x.currentIndex == y.currentIndex
    requires ex == tx - x.startTimeStamp && ey == ty - y.startTimeStamp
    requires ex > x.currentDuration && ex - x.currentDuration == ey - y.currentDuration
    ensures UpdateLine(x, tx, nx).step == UpdateLine(y, ty, ny).step
    ensures UpdateLine(x, tx, nx).step.Hold? ==>
              UpdateLine(x, tx, nx).marker.position == UpdateLine(y, ty, ny).marker.position
  {
    UpdateLineWalks(x, tx, nx, ex);
    UpdateLineWalks(y, ty, ny, ey);
    WalkAgree(x, y, x.currentIndex, x.currentDuration, ex, y.currentDuration, ey, tx, nx, ty, ny);
  }

  /** The marker `Pause` renders from: running state left, frame cancelled. */
  function Pausing(m: Marker, now: real): (x: Marker) {
    m.(pauseStartTime := now, state := Paused, frame := NoFrame)
  }

  /** `pause` is a one-off render, at the frame time matching `now`, of the
      marker already marked paused. */
  lemma PauseRenders(m: Marker, now: real, x: Marker, ts: real)
    requires Valid(m) && m.state == Run
    requires x == Pausing(m, now) && ts == m.startTimeStamp + (now - m.startTime)
    ensures Valid(x) && x.frame == NoFrame && x.state == Paused && x.pauseStartTime == now
    ensures Pause(m, now) == Animate(x, ts, true, now)
  {
  }

  /** A render of a paused marker at `elapsed` past the start of its segment
      that leaves it paused either leaves time on the segment it stops on,
      or holds at a station, past the end of the original segment. */
  lemma PausedRenderOutcome(x: Marker, ts: real, now: real, elapsed: real)
    requires Valid(x) && x.frame == NoFrame && x.state == Paused && x.pauseStartTime == now
    requires elapsed == ts - x.startTimeStamp && elapsed == now - x.startTime
    requires Animate(x, ts, true, now).state == Paused
    ensures var a := Animate(x, ts, true, now);
            || a.currentDuration - (a.pauseStartTime - a.startTime) >= 0.0
            || (&& elapsed > x.currentDuration
                && UpdateLine(x, ts, now).step.Hold?
                && a == UpdateLine(x, ts, now).marker)
  {
  }

  /** The first frame after a (re)start re-anchors the segment at that frame. */
  function Anchor(r: Marker, timestamp: real, now: real): (a: Marker) {
    r.(startTime := now, startTimeStamp := timestamp, frame := NoFrame)
  }

  /** When the first frame's boundary crossing holds at a station, the frame
      renders that station. */
  lemma FirstFrameHolds(r: Marker, timestamp: real, now: real)
    requires Valid(r) && r.frame == FirstFrame
    requires UpdateLine(Anchor(r, timestamp, now), timestamp, now).step.Hold?
    ensures OnFrame(r, timestamp, now).position
         == UpdateLine(Anchor(r, timestamp, now), timestamp, now).marker.position
  {
    var anchored := r.(startTime := now, startTimeStamp := timestamp);
    assert anchored.(frame := NoFrame) == Anchor(r, timestamp, now);
    assert OnFrame(r, timestamp, now) == Animate(anchored, timestamp, false, now);
  }

  /** Resuming from a pause taken during a station dwell: the resumed segment
      has minus the dwell's overshoot left, so the first frame replays the
      boundary crossing with the same overshoot and holds at the same
      station. */
  lemma ResumeFromDwell(p: Marker, x: Marker, ts: real, now: real, elapsed: real,
                        timestamp: real, later: real)
    requires Valid(x) && x.frame == NoFrame && x.state == Paused && x.pauseStartTime == now
    requires elapsed == ts - x.startTimeStamp && elapsed == now - x.startTime
    requires elapsed > x.currentDuration
    requires UpdateLine(x, ts, now).step.Hold? && p == UpdateLine(x, ts, now).marker
    ensures Valid(p) && p.state == Paused
    ensures OnFrame(Resume(p), timestamp, later).position == p.position
  {
    var r := Resume(p);
    UpdateLineAgree(Anchor(r, timestamp, later), x, timestamp, later, ts, now, 0.0, elapsed);
    FirstFrameHolds(r, timestamp, later);
  }

  /** Pausing and then resuming does not move the marker: the first frame
      after `resume` renders the position shown at the pause. While paused
      mid-segment, the segment restarts from the rendered position with the
      remaining time; while paused during a station dwell, the remaining
      dwell is replayed and the marker stays on the station. A pause whose
      render ended the marker leaves nothing to resume. */
  lemma PauseResumeSeamless(m: Marker, now: real, timestamp: real, later: real)
    requires Valid(m) && m.state == Run
    ensures OnFrame(Resume(Pause(m, now)), timestamp, later).position == Pause(m, now).position
  {
    var p := Pause(m, now);
    if p.state == Paused {
      var x := Pausing(m, now);
      var ts := m.startTimeStamp + (now - m.startTime);
      var elapsed := now - m.startTime;
      PauseRenders(m, now, x, ts);
      PausedRenderOutcome(x, ts, now, elapsed);
      if p.currentDuration - (p.pauseStartTime - p.startTime) < 0.0 {
        ResumeFromDwell(p, x, ts, now, elapsed, timestamp, later);
      }
    }
  }
}

=== FILE: state.dfy ===
/**
 The state of a moving marker: its path, the per-segment durations, the
 station dwell times, the cursor on the current segment, the timing anchors,
 the control state, and the host-visible effects (the rendered position, the
 pending frame request and the events fired so far).
 */
module MarkerState {
  import opened Geo
  import opened Durations

  /** The control state of the animation. */
  datatype Status = NotStarted | Ended | Paused | Run

  /** Events fired towards the host; `Loop` and `End` carry the elapsed time
      that was left over when the path wrapped or ended. */
  datatype Event = Start | Loop(elapsedTime: real) | End(elapsedTime: real)

  /** The frame request pending with the host scheduler. `FirstFrame` is the
      request made when the animation (re)starts: its callback re-anchors the
      timing before animating. `NextFrame` is the plain per-frame request. */
  datatype Frame = NoFrame | FirstFrame | NextFrame

  datatype Marker = Marker(
    latLngs: seq<LatLng>,
    durations: seq<real>,
    stations: map<int, real>,
    loop: bool,
    autostart: bool,
    currentIndex: int,
    currentDuration: real,
    currentLine: seq<LatLng>,
    state: Status,
    startTime: real,       // wall-clock time at which the current segment began
    startTimeStamp: real,  // frame-clock time at which the current segment began
    pauseStartTime: real,
    position: LatLng,      // what the host marker renders
    frame: Frame,
    events: seq<Event>)
  {
    predicate IsRunning() { state == Run }
    predicate IsEnded() { state == Ended }
    predicate IsStarted() { state != NotStarted }
    predicate IsPaused() { state == Paused }
  }

  /** The queries read the control state: a started marker is running,
      paused or ended, and at most one of those holds. */
  lemma QueriesPartition(m: Marker)
    ensures m.IsStarted() <==> m.IsRunning() || m.IsPaused() || m.IsEnded()
    ensures !(m.IsRunning() && m.IsPaused())
    ensures !(m.IsRunning() && m.IsEnded())
    ensures !(m.IsPaused() && m.IsEnded())
  {
  }

  function Last(s: seq<LatLng>): (p: LatLng)
    requires |s| > 0
  {
    s[|s| - 1]
  }

  /** Every registered dwell time is non-negative. */
  predicate DwellsOk(stations: map<int, real>) {
    forall k :: k in stations ==> stations[k] >= 0.0
  }

  /** A path with at least one segment and one duration per segment. */
  predicate PathShaped(m: Marker) {
    |m.latLngs| >= 2 && |m.durations| == |m.latLngs| - 1
  }

  /** The structural invariant every control operation keeps: the cursor
      indexes a segment, the cached segment (when loaded) ends at the
      waypoint after the cursor, a running or paused marker has a loaded
      segment, and a frame is pending only while running. */
  predicate Shaped(m: Marker) {
    && PathShaped(m)
    && 0 <= m.currentIndex <= |m.latLngs| - 2
    && (|m.currentLine| == 0 ||
        (|m.currentLine| == 2 && m.currentLine[1] == m.latLngs[m.currentIndex + 1]))
    && (m.state == Run || m.state == Paused ==> |m.currentLine| == 2)
    && (m.frame != NoFrame ==> m.state == Run)
  }

  /** `Shaped`, plus what the boundary-crossing loop needs to terminate:
      every segment takes positive time and no dwell is negative. */
  predicate Valid(m: Marker) {
    Shaped(m) && AllPositive(m.durations) && DwellsOk(m.stations)
  }

  /** The fields that the animation never changes. */
  predicate SamePath(m: Marker, m': Marker) {
    && m'.latLngs == m.latLngs
    && m'.durations == m.durations
    && m'.stations == m.stations
    && m'.loop == m.loop
    && m'.autostart == m.autostart
  }

  /** The cursor and both timing anchors. */
  predicate SameCursor(m: Marker, m': Marker) {
    && m'.currentIndex == m.currentIndex
    && m'.currentDuration == m.currentDuration
    && m'.currentLine == m.currentLine
    && m'.startTime == m.startTime
    && m'.startTimeStamp == m.startTimeStamp
  }

  /** The cursor sits on segment `i` with that segment's cached data. */
  predicate OnSegment(m: Marker, i: int) {
    && 0 <= i < |m.durations|
    && i + 2 <= |m.latLngs|
    && m.currentIndex == i
    && m.currentDuration == m.durations[i]
    && m.currentLine == [m.latLngs[i], m.latLngs[i + 1]]
  }

  /** Makes segment `index` the current one. */
  function LoadLine(m: Marker, index: int): (m': Marker)
    requires PathShaped(m) && 0 <= index <= |m.latLngs| - 2
    ensures OnSegment(m', index)
    ensures SamePath(m, m')
    ensures m' == m.(currentIndex := m'.currentIndex, currentDuration := m'.currentDuration,
                     currentLine := m'.currentLine)
  {
    m.(currentIndex := index, currentDuration := m.durations[index],
       currentLine := m.latLngs[index..index + 2])
  }

  /** The stop operation when given the leftover time, as the end of the path
      calls it: cancels the frame, ends, and fires `end` with that time. A
      marker that has already ended is left as it is. */
  function Finish(m: Marker, elapsedTime: real): (m': Marker)
    ensures m.state == Ended ==> m' == m
    ensures m.state != Ended ==>
              && m'.state == Ended
              && m'.frame == NoFrame
              && m'.events == m.events + [End(elapsedTime)]
    ensures SamePath(m, m') && SameCursor(m, m') && m'.position == m.position
  {
    if m.state == Ended then m
    else m.(frame := NoFrame, state := Ended, events := m.events + [End(elapsedTime)])
  }

  /** Only `Loop` events with a non-negative leftover time were appended. */
  predicate LoopsAppended(before: seq<Event>, after: seq<Event>) {
    && |before| <= |after|
    && after[..|before|] == before
    && forall k :: |before| <= k < |after| ==> after[k].Loop? && after[k].elapsedTime >= 0.0
  }

  /** The number of `end` events in a trace. */
  function EndCount(events: seq<Event>): (n: nat) {
    if |events| == 0 then 0
    else EndCount(events[..|events| - 1]) + (if events[|events| - 1].End? then 1 else 0)
  }

  lemma EndCountAppend(s: seq<Event>, e: Event)
    ensures EndCount(s + [e]) == EndCount(s) + (if e.End? then 1 else 0)
  {
    assert (s + [e])[..|s|] == s;
  }

  /** Appending one `end` event counts once. */
  lemma EndCountAppendOne(before: seq<Event>, after: seq<Event>)
    requires |after| == |before| + 1 && after[..|before|] == before && after[|before|].End?
    ensures EndCount(after) == EndCount(before) + 1
  {
    assert after == before + [after[|before|]];
    EndCountAppend(before, after[|before|]);
  }

  /** Appending `loop` events leaves the number of `end` events as it was. */
  lemma {:induction false} EndCountLoops(before: seq<Event>, after: seq<Event>)
    requires LoopsAppended(before, after)
    ensures EndCount(after) == EndCount(before)
    decreases |after|
  {
    if |after| > |before| {
      var shorter := after[..|after| - 1];
      assert shorter[..|before|] == before;
      EndCountLoops(before, shorter);
    } else {
      assert after == before;
    }
  }
}
